=== FILE: README.md ===
# redroid-script download cache and image tagging, in Dafny

This project models two parts of `rds`, the tool that layers Google apps, the
NDK translation layer and Widevine onto a redroid base image.

1. **The checksum-keyed download cache** (`rds/modules/common.py`).
   - `download_with_md5` streams a response into `folder/filename`. It feeds
     every non-empty chunk to MD5 (RFC 1321) and raises on a digest mismatch.
   - `download_from_cache` serves a file from `cache_root/<md5>/` when that
     container can be listed and holds exactly one readable regular file with
     the right digest. Otherwise it refuses in readonly mode. If it is not
     readonly, it either creates the cache directories, downloads into the
     container and re-serves through a readonly call, or downloads straight
     into the output folder.
2. **Version classification and tag composition** (`rds/__main__.py`). This
   covers the frozen Android version tables and the split of
   `--android-version` into major and revision. It also covers the legacy and
   mixed-mode warnings, the NDK and OpenGapps guards, and the patched tag
   `<image>:<major>_<modifiers>-<revision>`.

## Files

| file | module | contents |
|---|---|---|
| `base.dfy` | `Base` | `Option`, `Result`, bytes, digests |
| `download.dfy` | `Download` | the streamed body, `DownloadWithMd5` |
| `cache.dfy` | `Cache` | the abstract cache filesystem and `DownloadFromCache` |
| `cache_properties.dfy` | `CacheProperties` | properties of single calls and of call pairs |
| `text.dfy` | `Text` | Python's `str.split` / `str.join` with their round trips |
| `versions.dfy` | `Versions` | version tables, parsing, features, deprecation warnings |
| `build.dfy` | `Build` | the guards of `main`, the warnings, the tag modifiers and the tag |

## How the world is abstracted

- **MD5** is the field `Env.md5: Bytes -> Digest`. It is any function, so the
  proofs hold for every digest function. They rely only on it being a function
  of the bytes.
- **The network** is the field `Env.fetch: Url -> Option<Response>`. `None`
  stands for everything the request layer raises before the body is read. A
  `Response` is the filename from Content-Disposition (RFC 6266, section 4.3),
  kept opaque, the body as the chunks the stream delivers, and a flag
  `complete` that is false when the stream raised after those chunks.
- **The filesystem** is `CacheFs`: the permissions of the cache root's parent,
  and the root if it exists. The root maps digests to containers. A container
  has permissions and an ordered listing of `Entry(name, isFile, readable,
  content)`. `Perms` holds what `os.access` says for R, W and X, plus the
  `ST_RDONLY` mount flag from `os.statvfs`. The output folder is a map from
  file name to bytes.
- **New directories** get the permission bits `Env.newDirPerms` (the umask)
  and the mount flag of their parent. Whether a freshly written file is
  readable is `Env.newFileReadable`.
- **The reply** (`Cache.Reply`) is one of:
  - `Served`: an existing entry was copied out.
  - `Populated`: the file was downloaded into the cache and then served by the
    readonly call.
  - `Downloaded`: direct download.
  - `ReadonlyMiss`: the `RuntimeError`.
  - `Mismatch`: the `ValueError`.
  - `FetchFailed`: a request error before the body.
  - `BodyInterrupted`: the body read raised. The partial file stays.
  - `AssertionFailed`: the `assert` after the readonly call. It is proved never
    to occur.
- **The recursive readonly call** is kept as recursion: `ServeFresh`, which
  `PopulateThenServe` calls after a download with the right digest, calls
  `DownloadFromCache` with `readonly = true`, and that call cannot recurse
  again.

### Behaviour of the code worth knowing

- **Corrupt leftovers.** A cache-path download that fails the digest check
  leaves its file in the container (rds/modules/common.py:256). A later
  checked call rejects it (`MismatchNeverTrustedLater`). A later call with
  `skipcheck=True` skips the digest comparison at line 189 and serves the
  wrong-digest file (`SkipcheckServesFailedDownload`).
- **Interrupted bodies.** When the body read raises after the file is open
  (line 127), the partial file stays where it was being written. In the cache
  it poisons the key like a mismatch leftover (`InterruptedDownloadPoisonsCache`).
- **Unlistable containers.** A container that cannot be listed sets
  `abort_caching` (lines 183-188). That call, and every later call for the same
  digest, never populates the cache. A readonly call raises `RuntimeError` with
  no effect, and any other call downloads straight to the output folder
  (`UntrustedContainerFallsThrough`).
- **Permission aborts.** A parent, root or container that cannot be written
  also sets `abort_caching` (lines 219-249), and the call is then exactly the
  direct download of line 263 (`PrepareAbortsExactly`, `PermissionAbortIsDirect`).
- **Unreadable new files.** When the file just written into the cache is not
  readable, the readonly re-serving call at line 257 finds nothing to serve and
  raises `RuntimeError`. `PopulateThenServe` states exactly when this happens.
- **Warnings before a later error.** `main` emits the legacy or mixed-mode
  warning (lines 161-172) before it checks the components (lines 209-231). The
  model reports warnings only in a successful plan.

## Model

| member | source | states |
|---|---|---|
| `Download.StreamBody` | rds/modules/common.py:126-130 | both accumulators end up holding every chunk in order. One accumulator stands for the MD5 state, the other for the written file. |
| `Download.StreamedIsConcat` | rds/modules/common.py:127-130 | skipping empty chunks neither loses nor reorders bytes: the bytes hashed and written are the concatenation of all chunks |
| `Download.DownloadWithMd5` | rds/modules/common.py:103-135 | it fails before writing exactly when the request fails. Otherwise it writes the delivered chunks, concatenated, under the response's filename. It is interrupted exactly when the stream raised. For a complete body it reports success exactly when the body's MD5 equals the expected digest. |
| `Cache.Scan` | rds/modules/common.py:162-182 | the listing loop yields a candidate exactly when there is one child and it is a readable regular file. It aborts exactly when some child exists but no candidate results. |
| `Cache.ProbeCache` | rds/modules/common.py:156-201 | it finds a candidate exactly when the container exists, is listable, holds one usable file, and the file's digest matches or the check is skipped. It aborts caching exactly when a container exists that is neither trusted nor listable-and-empty. |
| `Cache.EnsureRoot` | rds/modules/common.py:219-230 | the root is created only under a writable, read-write parent. If caching survives, the root exists. |
| `Cache.EnsureContainer` | rds/modules/common.py:231-242 | the container is created only under a writable root, and it is created empty. If caching survives, the container exists. |
| `Cache.PrepareCache` | rds/modules/common.py:219-249 | if caching survives, the container exists and is writable. An earlier abort changes nothing. An existing container is never touched. No entry is removed, and only the requested key changes. |
| `Cache.DownloadFromCache` | rds/modules/common.py:138-263 | a delivered file is in the output folder as the only change there, and its MD5 is the expected one unless an unchecked cache hit served it. A hit comes only from a trustworthy container and makes no request. Readonly calls leave the cache unchanged and fetch nothing. A `Populated` or `Downloaded` file carries the response's name and its complete body. A `Mismatch` means the complete body's digest is wrong. The assertion never fails. At most one request is made. Cache entries are never removed or rewritten. A request error before the body leaves the output folder unchanged. An interrupted body leaves at most the partial file there. |
| `Cache.FetchOnMiss` | rds/modules/common.py:216-263 | with nothing to serve, a delivered file has the expected digest, carries the response's name and complete body, and is the only change to the output folder. A `Mismatch` means the complete body's digest is wrong. Exactly one request is made. When the mkdir or permission steps abort caching, the call is exactly the direct download on the cache those steps left. Otherwise it is exactly the download into the cache followed by the re-serve. Cache entries are never removed or rewritten. |
| `Cache.ServeFresh` | rds/modules/common.py:257-261 | the readonly, checked re-serve of the file just written serves exactly that file, under its name and with its bytes, exactly when the new file is readable. Otherwise it is the `RuntimeError` with no effect. The assertion never fails. |
| `Cache.PopulateThenServe` | rds/modules/common.py:251-261 | after one request that delivered a response, the container holds exactly that response's file (its name, the bytes delivered, the readability of a new file). The reply is a mismatch exactly when the complete body's digest is wrong. It is `Populated` exactly when the body is complete and correct and the new file is readable, and then the caller gets the response's name and bytes. A request error before the body is `FetchFailed`, and a raised body read is `BodyInterrupted`. The output folder changes only on success. A readonly miss happens exactly when a complete, correct file was written unreadable. |
| `Cache.DownloadDirect` | rds/modules/common.py:262-263 | the cache is untouched. It fails without writing exactly when the request fails. Otherwise the output folder gets the delivered bytes under the response's name, even when the body was interrupted or the digest is wrong. The result is a success exactly when the body is complete and the digest matches. |
| `CacheProperties.CacheHitIsServed` | rds/modules/common.py:161-208 | a listable container with one usable file that passes the digest check (or skips it) is served: the file is copied under its own name, the cache is unchanged and nothing is fetched |
| `CacheProperties.UntrustedContainerFallsThrough` | rds/modules/common.py:161-201 | a container that is unlistable, has two or more children, has an unusable first child, or has a wrong-digest file is never served. A readonly call then fails with no effect, and any other call is exactly the direct download with the cache untouched. |
| `CacheProperties.ReadonlyMissHasNoEffect` | rds/modules/common.py:210-214 | readonly with nothing trustworthy raises before any mkdir or request, and leaves both folders as they were |
| `CacheProperties.CacheDirsNeedWritableParent` | rds/modules/common.py:219-242 | a call creates the root only under a writable, read-write parent, and the container only under such a root |
| `CacheProperties.CachingPopulates` | rds/modules/common.py:216-261 | whenever nothing can be served and the mkdir and permission steps keep caching on, a complete, correct body with a readable new file ends `Populated`. The container holds just the response's file, and the caller gets the response's name and bytes after one request. |
| `CacheProperties.ColdCachePopulates` | rds/modules/common.py:219-261 | from no cache root, with creatable directories, a readable new file and a correct source, the call populates a container holding only that file. The caller gets the same bytes under the same name after one request. |
| `CacheProperties.WarmCacheServesWithoutNetwork` | rds/modules/common.py:157-208 | after a call populated the cache, any later call for that digest is served from it with the same bytes and no request, whatever the network now returns |
| `CacheProperties.MismatchNeverTrustedLater` | rds/modules/common.py:189-201 | after a call failed the digest check, no later checked call for that digest serves anything from the cache |
| `CacheProperties.SkipcheckServesFailedDownload` | rds/modules/common.py:189-208 | a wrong-digest file left by a failed cache-path download is served by a later `skipcheck` call |
| `CacheProperties.PrepareAbortsExactly` | rds/modules/common.py:219-249 | the mkdir and permission steps abort caching exactly when an existing container is not writable or, if it must be created, when the root (existing or new) or the new container is not writable |
| `CacheProperties.PermissionAbortIsDirect` | rds/modules/common.py:219-263 | with nothing to serve, an abort from the mkdir or permission checks makes the call exactly the direct download of line 263 |
| `CacheProperties.UnwritableParentDownloadsDirect` | rds/modules/common.py:219-230 | with no cache root and an unwritable parent, the cache is left alone and a complete, correct download is `Downloaded` under the response's name into the output folder |
| `CacheProperties.InterruptedDownloadPoisonsCache` | rds/modules/common.py:126-130 | an interrupted cache-path download leaves its partial file in a fresh container. If the partial digest is wrong, later checked calls that are not readonly download directly, and checked readonly ones raise `RuntimeError` with no effect. A readonly `skipcheck` call serves the partial bytes. |
| `Text.Split` | rds/__main__.py:153 | `str.split` on one character always yields at least one part, and no part contains the separator |
| `Text.JoinSplit` | rds/__main__.py:153 | joining the parts of a split restores the string |
| `Text.SplitJoin` | rds/__main__.py:244 | splitting a join of separator-free parts restores the parts |
| `Versions.ParseAndroid` | rds/__main__.py:153 | a successful unpacking gives two dash-free strings that rebuild the input around one `-` |
| `Versions.ParseAndroidComplete` | rds/__main__.py:153 | every `major-revision` with dash-free sides unpacks into exactly those sides |
| `Versions.Features` | rds/__main__.py:154 | no feature contains `_`, and a major without `_` has no features. `FeaturesOf` gives the features exactly. |
| `Versions.FeaturesOf` | rds/__main__.py:154 | the features of `base_c1_..._cn` are exactly `c1..cn`. A major without `_` has none. |
| `Versions.VersionDeprecation` | rds/__main__.py:161-172 | the legacy warning is given exactly for legacy majors, and the mixed-mode warning exactly for the other majors without the `64only` feature |
| `Versions.SupportedIsNotLegacy` | rds/__main__.py:34-76 | no supported major is legacy |
| `Versions.LegacySupportedDisjoint` | rds/__main__.py:68-76 | the legacy and supported tables are disjoint |
| `Versions.DeprecationByComponents` | rds/__main__.py:154-172 | for a supported major, the warning depends only on whether `64only` is among its components |
| `Versions.Android12Deprecation` | rds/__main__.py:36 | every Android 12 major draws no warning if it is on the 64-bit-only list, and the mixed-mode warning otherwise |
| `Versions.Android13Deprecation` | rds/__main__.py:38-45 | every Android 13 major draws no warning if it is on the 64-bit-only list, and the mixed-mode warning otherwise |
| `Versions.PairDeprecation` | rds/__main__.py:47-66 | in the Android 14, 15 and 16 tables the plain release draws the mixed-mode warning and the `_64only` one draws none |
| `Versions.SupportedDeprecation` | rds/__main__.py:161-172 | among supported majors, exactly the hand-listed 64-bit-only ones draw no warning. Every other one draws the mixed-mode warning. |
| `Versions.DefaultVersionIsCurrent` | rds/__main__.py:108 | the default `16.0.0_64only-latest` unpacks into an Android 16 major and revision `latest`, has the single feature `64only` and draws no warning |
| `Versions.DefaultMajorFeatures` | rds/__main__.py:154 | the default major's only feature is `64only` |
| `Build.CheckVersion` | rds/__main__.py:150-159 | it rejects the NDK off amd64 first, then a version that does not unpack into two parts, then a major missing from the full table. It accepts exactly an amd64-compatible request whose major is in the full table. |
| `Build.CheckComponents` | rds/__main__.py:208-231 | it accepts exactly when OpenGapps comes with an Android 9, 10 or 11 major and the NDK comes with an Android 11 or 12 major. The OpenGapps error comes before the NDK error. |
| `Build.Warnings` | rds/__main__.py:161-217 | the legacy warning is present exactly for legacy majors. The mixed-mode warning is present exactly for supported majors without `64only`. The litegapps warning is present exactly when litegapps is requested. There are at most two warnings and no duplicates, and the litegapps warning comes last. |
| `Build.PlanBuild` | rds/__main__.py:150-244 | it succeeds exactly when every guard of `main` holds. Each of the five errors is reported exactly when its guard fails and every earlier guard holds, in `main`'s order: NDK off amd64, malformed version, unknown major, OpenGapps too new, NDK untested. The input rebuilds from major and revision. The tag is `<image>:<major>_<joined modifiers>-<revision>`. The major is in the full table. The warnings are exactly those `Warnings` gives for that major, so each appears under its condition, at most once, and in `main`'s order. |
| `Build.VersionWarningsExclusive` | rds/__main__.py:161-172 | a plan never carries both the legacy and the mixed-mode warning |
| `Build.Modifiers` | rds/__main__.py:204-242 | the modifiers are `patched` followed by exactly the enabled components, with gapps before ndk before widevine. The length and every position are fixed. |
| `Build.TagKeepsRevision` | rds/__main__.py:244 | a tag built from dash-free parts unpacks into its image-and-version part and the original revision |
| `Build.PatchedFeatures` | rds/__main__.py:244 | the version part of the tag has the original features plus every modifier as features |
| `Build.PatchedTagShape` | rds/__main__.py:244 | for a successful plan, the tag parses back to the same revision, and its version part carries the original features plus every modifier |

## Left out

- `copy_file`'s platform branches (`robocopy`, `cp --reflink`, `cp -c`, `cp -p`) are subprocess calls. The copy is modelled as "the destination gets the source's bytes under the source's name" (`Cache.CopyOut`). Copy failures are not modelled.
- The request layer is the opaque `fetch`. This covers `requests.Session`, the `Retry(total=3, backoff_factor=0.3)` backoff, `raise_for_status` and the `pyrfc6266` filename derivation. Every request failure before the body is one `FetchFailed`. A failure while reading the body is modelled as a stream that stops after some chunks (`BodyInterrupted`). Filenames are neither sanitised nor checked.
- The real MD5 computation is not modelled. Only equality with the expected digest matters, so MD5 is an arbitrary function.
- `user_cache_dir`, `os.access` and `os.statvfs` are system calls. They become fields of the abstract state.
- A cache root that cannot be traversed, which makes `Path.exists` raise, is not modelled. The model assumes the container's existence can always be decided.
- A regular file sitting where the digest container should be is modelled only when it lacks the execute bit. It then fails the `R_OK | X_OK` check at line 161 and behaves like an unlistable container: caching is aborted, every mkdir step is skipped because the path exists, and the call downloads directly or, if readonly, raises `RuntimeError` (`UntrustedContainerFallsThrough`). A readable, executable regular file there, whose `iterdir()` at line 162 raises `NotADirectoryError`, is not modelled: containers in the model are directories.
- The `Common` base class and `APP_NAME`/`APP_AUTHOR` only name the temporary copy directory and the cache location. Both are abstracted into parameters.
- I/O errors from `mkdir`, from writing into the output folder or container (disk full, permissions of the output folder), and from `iterdir` are not modelled.
- Concurrent processes sharing the cache are not modelled: no lock exists, and the code only tolerates races through the multi-file check. The model is sequential. It states the single-call contract and properties of consecutive calls, not the "N concurrent callers" behaviour.
- The argument parser, the default-architecture detection from `platform.machine()`, the `docker image pull` and `docker buildx build` subprocesses, `TemporaryDirectory`, the Dockerfile lines and the printing in `main` are I/O. The model does not include them.
- The component installers (`install()` of Gapps, LiteGapps, MindTheGapps, Ndk, Widevine) are archive extraction. Their `copy_dir_static` names are a parameter (`Build.CopyDirs`). The shown classes use `opengapps` and `mindthegapps`. rds/modules/gapps.py, litegapps, ndk and widevine are not part of this model.
- The defects in `main` that would stop it at run time are not modelled; the intended logic is. Those defects are:
  - `Gapps` comes from an unshown module.
  - `LiteGapps`, `MindTheGapps`, `Ndk` and `Widevine` are never imported.
  - Line 217 calls `warnings.warn` with only `warn` imported.
  - Line 241 writes a literal `{widevine.copy_dir_static}` because it is not an f-string.
  - Line 240 calls `install` on the class.
- Build.PlanBuild: warnings emitted before a later error (for instance the mixed-mode warning before an OpenGapps error) are not reported, because a failed plan carries only its error.
- rds/state.py is reused only as the `Arch` datatype. rds/modules/opengapps.py and rds/modules/mindthegapps.py are file munging around a table lookup and are not part of this model.

=== FILE: base.dfy ===
/** Shared value types: optional values, results, and the byte strings that
    travel between the network, the cache and the output folder. */
module Base {

  datatype Option<+T> = None | Some(value: T)

  datatype Result<+R, +E> = Success(value: R) | Failure(error: E)

  newtype Byte = b: int | 0 <= b < 256

  type Bytes = seq<Byte>

  /** A lower-case hexadecimal MD5 digest (RFC 1321), used both as the cache key
      and as the integrity proof of a download. */
  type Digest = string

  type Url = string
}

=== FILE: build.dfy ===
/** The pure part of `main` in rds/__main__.py: the feature guards, the
    version checks and the composition of the patched image tag. */
module Build {
  import opened Base
  import opened Text
  import opened Versions

  datatype Arch = Amd64 | Arm64
  {
    function Name(): string
    {
      match this
      case Amd64 => "amd64"
      case Arm64 => "arm64"
    }
  }

  datatype GappsProvider = OpenGapps | LiteGapps | MindTheGapps

  /** The parsed command line. */
  datatype Args = Args(redroid: string, android: string, architecture: Arch,
                       gapps: Option<GappsProvider>, ndk: bool, widevine: bool)

  /** Each component's `copy_dir_static`: the directory it fills and the
      modifier it adds to the tag. */
  datatype CopyDirs = CopyDirs(openGapps: string, liteGapps: string, mindTheGapps: string,
                               ndk: string, widevine: string)
  {
    function Gapps(provider: GappsProvider): string
    {
      match provider
      case OpenGapps => openGapps
      case LiteGapps => liteGapps
      case MindTheGapps => mindTheGapps
    }

    /** No directory name contains `c`. */
    predicate Avoid(c: char)
    {
      c !in openGapps && c !in liteGapps && c !in mindTheGapps && c !in ndk && c !in widevine
    }
  }

  datatype Warning = Version(deprecation: Deprecation) | LiteGappsDeprecated

  /** The `ValueError`s `main` raises, and the failed tuple unpacking. */
  datatype BuildError = NdkNeedsAmd64 | MalformedVersion | UnsupportedVersion
                      | OpenGappsTooNew | NdkUntested

  datatype Plan = Plan(baseTag: string, platform: string, major: string, revision: string,
                       features: set<string>, warnings: seq<Warning>,
                       modifiers: seq<string>, tag: string)

  /** The tag modifiers, in the order the components are installed: `patched`,
      then exactly the enabled components, gapps before ndk before widevine. */
  function Modifiers(args: Args, dirs: CopyDirs): (m: seq<string>)
    ensures var g := if args.gapps.Some? then 1 else 0;
            var n := if args.ndk then 1 else 0;
            && |m| == 1 + g + n + (if args.widevine then 1 else 0)
            && m[0] == "patched"
            && (args.gapps.Some? ==> m[1] == dirs.Gapps(args.gapps.value))
            && (args.ndk ==> m[1 + g] == dirs.ndk)
            && (args.widevine ==> m[1 + g + n] == dirs.widevine)
  {
    ["patched"]
    + (if args.gapps.Some? then [dirs.Gapps(args.gapps.value)] else [])
    + (if args.ndk then [dirs.ndk] else [])
    + (if args.widevine then [dirs.widevine] else [])
  }

  /** The guards `main` applies before it builds, as one condition. */
  predicate Accepted(args: Args)
  {
    && (args.ndk ==> args.architecture == Amd64)
    && ParseAndroid(args.android).Some?
    && var major := ParseAndroid(args.android).value.0;
       && major in AndroidAll
       && (args.gapps == Some(OpenGapps) ==> major in Android9Majors + Android10Majors + Android11Majors)
       && (args.ndk ==> major in Android11Majors + Android12Majors)
  }

  /** Lines 150-159: the architecture guard for the NDK, the unpacking of the
      version string, and the check against every known major. */
  function CheckVersion(args: Args): (r: Result<(string, string), BuildError>)
    ensures r == Failure(NdkNeedsAmd64) <==> args.ndk && args.architecture != Amd64
    ensures r == Failure(MalformedVersion) <==>
              !(args.ndk && args.architecture != Amd64) && ParseAndroid(args.android).None?
    ensures r == Failure(UnsupportedVersion) <==>
              && !(args.ndk && args.architecture != Amd64)
              && ParseAndroid(args.android).Some?
              && ParseAndroid(args.android).value.0 !in AndroidAll
    ensures r.Success? <==>
              && (args.ndk ==> args.architecture == Amd64)
              && ParseAndroid(args.android).Some?
              && ParseAndroid(args.android).value.0 in AndroidAll
    ensures r.Success? ==> r.value == ParseAndroid(args.android).value
  {
    if args.ndk && args.architecture != Amd64 then Failure(NdkNeedsAmd64)
    else match ParseAndroid(args.android)
    case None => Failure(MalformedVersion)
    case Some((major, revision)) =>
      if major !in AndroidAll then Failure(UnsupportedVersion)
      else Success((major, revision))
  }

  /** Lines 209-211 and 229-231: OpenGapps needs Android 11 or older, the NDK
      translation needs Android 11 or 12. */
  function CheckComponents(args: Args, major: string): (e: Option<BuildError>)
    ensures e.None? <==>
              && (args.gapps == Some(OpenGapps) ==> major in Android9Majors + Android10Majors + Android11Majors)
              && (args.ndk ==> major in Android11Majors + Android12Majors)
    ensures e == Some(OpenGappsTooNew) <==>
              args.gapps == Some(OpenGapps) && major !in Android9Majors + Android10Majors + Android11Majors
    ensures e == Some(NdkUntested) <==>
              && (args.gapps == Some(OpenGapps) ==> major in Android9Majors + Android10Majors + Android11Majors)
              && args.ndk && major !in Android11Majors + Android12Majors
  {
    if args.gapps == Some(OpenGapps) && major !in Android9Majors + Android10Majors + Android11Majors
    then Some(OpenGappsTooNew)
    else if args.ndk && major !in Android11Majors + Android12Majors then Some(NdkUntested)
    else None
  }

  /** Lines 161-172 and 217: the version warning, then the litegapps one. */
  function Warnings(args: Args, major: string): (w: seq<Warning>)
    requires major in AndroidAll
    ensures Version(LegacyRelease) in w <==> major in AndroidLegacy
    ensures Version(MixedMode) in w <==> major in AndroidSupported && "64only" !in Features(major)
    ensures LiteGappsDeprecated in w <==> args.gapps == Some(LiteGapps)
    ensures |w| <= 2
    ensures forall i, j :: 0 <= i < j < |w| ==> w[i] != w[j] && w[i] != LiteGappsDeprecated
  {
    LegacySupportedDisjoint();
    var deprecation := VersionDeprecation(major);
    (if deprecation.Some? then [Version(deprecation.value)] else [])
    + (if args.gapps == Some(LiteGapps) then [LiteGappsDeprecated] else [])
  }

  /** Checks the request the way `main` does, in its order, and computes the
      base tag, the warnings and the patched tag. */
  function PlanBuild(args: Args, dirs: CopyDirs): (r: Result<Plan, BuildError>)
    ensures r.Success? <==> Accepted(args)
    ensures r == Failure(NdkNeedsAmd64) <==> args.ndk && args.architecture != Amd64
    ensures r == Failure(MalformedVersion) <==>
              !(args.ndk && args.architecture != Amd64) && ParseAndroid(args.android).None?
    ensures r == Failure(UnsupportedVersion) <==>
              && !(args.ndk && args.architecture != Amd64)
              && ParseAndroid(args.android).Some?
              && ParseAndroid(args.android).value.0 !in AndroidAll
    ensures r == Failure(OpenGappsTooNew) <==>
              && (args.ndk ==> args.architecture == Amd64)
              && ParseAndroid(args.android).Some?
              && var major := ParseAndroid(args.android).value.0;
                 && major in AndroidAll
                 && args.gapps == Some(OpenGapps)
                 && major !in Android9Majors + Android10Majors + Android11Majors
    ensures r == Failure(NdkUntested) <==>
              && (args.ndk ==> args.architecture == Amd64)
              && ParseAndroid(args.android).Some?
              && var major := ParseAndroid(args.android).value.0;
                 && major in AndroidAll
                 && (args.gapps == Some(OpenGapps) ==> major in Android9Majors + Android10Majors + Android11Majors)
                 && args.ndk && major !in Android11Majors + Android12Majors
    ensures r.Success? ==> args.android == r.value.major + "-" + r.value.revision
    ensures r.Success? ==> r.value.baseTag == args.redroid + ":" + args.android
    ensures r.Success? ==> r.value.platform == "linux/" + args.architecture.Name()
    ensures r.Success? ==> r.value.modifiers == Modifiers(args, dirs) && r.value.features == Features(r.value.major)
    ensures r.Success? ==>
              r.value.tag == args.redroid + ":" + r.value.major + "_" + Join('_', r.value.modifiers)
                             + "-" + r.value.revision
    ensures r.Success? ==> (Version(LegacyRelease) in r.value.warnings <==> r.value.major in AndroidLegacy)
    ensures r.Success? ==>
              (Version(MixedMode) in r.value.warnings <==>
                 r.value.major in AndroidSupported && "64only" !in r.value.features)
    ensures r.Success? ==> (LiteGappsDeprecated in r.value.warnings <==> args.gapps == Some(LiteGapps))
    ensures r.Success? ==> r.value.major in AndroidAll
    ensures r.Success? ==> r.value.warnings == Warnings(args, r.value.major)
  {
    match CheckVersion(args)
    case Failure(e) => Failure(e)
    case Success((major, revision)) =>
      match CheckComponents(args, major)
      case Some(e) => Failure(e)
      case None =>
        var modifiers := Modifiers(args, dirs);
        Success(Plan(args.redroid + ":" + args.android,
                     "linux/" + args.architecture.Name(),
                     major, revision, Features(major), Warnings(args, major), modifiers,
                     args.redroid + ":" + major + "_" + Join('_', modifiers) + "-" + revision))
  }

  /** The legacy and mixed-mode warnings never come together. */
  lemma VersionWarningsExclusive(args: Args, dirs: CopyDirs)
    ensures PlanBuild(args, dirs).Success? ==>
              var w := PlanBuild(args, dirs).value.warnings;
              !(Version(LegacyRelease) in w && Version(MixedMode) in w)
  {
    LegacySupportedDisjoint();
  }

  /** With a dash-free image name and modifiers, the patched tag keeps the
      `<version>-<revision>` shape of the input: it parses into the
      image-and-version part and the same revision. */
  lemma TagKeepsRevision(redroid: string, major: string, modifiers: seq<string>, revision: string)
    requires '-' !in redroid && '-' !in major && '-' !in revision
    requires forall i :: 0 <= i < |modifiers| ==> '-' !in modifiers[i]
    ensures ParseAndroid(redroid + ":" + major + "_" + Join('_', modifiers) + "-" + revision)
            == Some((redroid + ":" + major + "_" + Join('_', modifiers), revision))
  {
    var joined := Join('_', modifiers);
    JoinAvoids(modifiers, '_', '-');
    var head := redroid + ":" + major + "_" + joined;
    assert forall c :: c in head ==> c in redroid || c == ':' || c in major || c == '_' || c in joined;
    ParseAndroidComplete(head, revision);
  }

  /** A join never contains a character that neither the separator nor any
      part contains. */
  lemma {:induction false} JoinAvoids(parts: seq<string>, sep: char, c: char)
    requires c != sep
    requires forall i :: 0 <= i < |parts| ==> c !in parts[i]
    ensures c !in Join(sep, parts)
    decreases |parts|
  {
    if |parts| > 1 {
      JoinAvoids(parts[1..], sep, c);
    }
  }

  /** With underscore-free modifiers, the version part of the patched tag has
      the original features plus every modifier as its features. */
  lemma PatchedFeatures(major: string, modifiers: seq<string>)
    requires |modifiers| >= 1
    requires forall i :: 0 <= i < |modifiers| ==> '_' !in modifiers[i]
    ensures Features(major + "_" + Join('_', modifiers))
            == Features(major) + set i | 0 <= i < |modifiers| :: modifiers[i]
  {
    SplitJoin(modifiers, '_');
    SplitAround(major, Join('_', modifiers), '_');
    TailElements(Split(major, '_'), modifiers);
  }

  /** Every modifier avoids a character that `patched` and every directory
      name avoid. */
  lemma ModifiersAvoid(args: Args, dirs: CopyDirs, c: char)
    requires dirs.Avoid(c) && c !in "patched"
    ensures forall i :: 0 <= i < |Modifiers(args, dirs)| ==> c !in Modifiers(args, dirs)[i]
  {
  }

  /** For a plan over dash-free names, the patched tag parses back into its
      revision; over underscore-free directories, its version part carries the
      original features, `patched`, and each enabled component. */
  lemma PatchedTagShape(args: Args, dirs: CopyDirs)
    ensures PlanBuild(args, dirs).Success? ==>
              var p := PlanBuild(args, dirs).value;
              && ('-' !in args.redroid && dirs.Avoid('-') ==>
                    ParseAndroid(p.tag).Some? && ParseAndroid(p.tag).value.1 == p.revision)
              && (dirs.Avoid('_') ==>
                    Features(p.major + "_" + Join('_', p.modifiers))
                    == p.features + set i | 0 <= i < |p.modifiers| :: p.modifiers[i])
  {
    if PlanBuild(args, dirs).Failure? {
      return;
    }
    var p := PlanBuild(args, dirs).value;
    if '-' !in args.redroid && dirs.Avoid('-') {
      ModifiersAvoid(args, dirs, '-');
      TagKeepsRevision(args.redroid, p.major, p.modifiers, p.revision);
    }
    if dirs.Avoid('_') {
      ModifiersAvoid(args, dirs, '_');
      PatchedFeatures(p.major, p.modifiers);
    }
  }
}

=== FILE: cache.dfy ===
/** The checksum-keyed download cache, `download_from_cache` in
    rds/modules/common.py, as a decision procedure over an immutable abstract
    filesystem.

    The cache root (`user_cache_dir`) holds one container directory per
    expected digest; a container is trusted only when it can be listed and
    holds exactly one readable regular file.  `os.access` and `os.statvfs`
    become the boolean fields of `Perms`; everything the host decides for a
    freshly created directory or file (umask, mount) lives in `Env`. */
module Cache {
  import opened Base
  import opened Download

  /** What `os.access` reports for R_OK, W_OK and X_OK, and whether the
      filesystem is mounted with ST_RDONLY. */
  datatype Perms = Perms(read: bool, write: bool, exec: bool, readOnlyMount: bool)

  /** `os.access(path, R_OK | X_OK)`: the directory can be listed. */
  predicate Listable(p: Perms) { p.read && p.exec }

  /** `os.access(path, W_OK | R_OK | X_OK)` and not mounted read-only. */
  predicate Writable(p: Perms) { p.write && p.read && p.exec && !p.readOnlyMount }

  /** One child of a container, in the order `iterdir` lists it. */
  datatype Entry = Entry(name: string, isFile: bool, readable: bool, content: Bytes)

  /** `child.exists() and child.is_file() and os.access(child, R_OK)`. */
  predicate Usable(e: Entry) { e.isFile && e.readable }

  datatype Container = Container(perms: Perms, entries: seq<Entry>)

  datatype Root = Root(perms: Perms, containers: map<Digest, Container>)

  /** The parent of the cache root, and the cache root if it exists. */
  datatype CacheFs = CacheFs(parentPerms: Perms, root: Option<Root>)

  /** The caller's output folder: file name to file bytes. */
  type Folder = map<string, Bytes>

  /** The world outside the procedure: MD5, the network, the permissions a
      new directory gets from the umask, and whether a freshly written file is
      readable by its writer. */
  datatype Env = Env(md5: Bytes -> Digest, fetch: Url -> Option<Response>,
                     newDirPerms: Perms, newFileReadable: bool)

  datatype Reply =
    | Served(name: string)      // an existing cache entry was copied out
    | Populated(name: string)   // downloaded into the cache, then served from it
    | Downloaded(name: string)  // downloaded straight into the output folder
    | ReadonlyMiss              // RuntimeError: readonly and nothing to serve
    | Mismatch                  // ValueError: the download's MD5 differed
    | FetchFailed               // the request layer raised before the body
    | BodyInterrupted           // the body read raised; the partial file stays
    | AssertionFailed           // the `assert` after the re-serving call failed
  {
    predicate Delivered() { Served? || Populated? || Downloaded? }
  }

  /** The reply, the cache afterwards, the output folder afterwards, and how
      many network requests the call made. */
  datatype Outcome = Outcome(reply: Reply, fs: CacheFs, out: Folder, fetches: nat)

  function ContainerAt(fs: CacheFs, key: Digest): Option<Container>
  {
    if fs.root.Some? && key in fs.root.value.containers
    then Some(fs.root.value.containers[key])
    else None
  }

  /** A container the call may serve from: listable, exactly one usable file,
      and that file's digest is the expected one unless the check is skipped. */
  predicate Trustworthy(md5: Bytes -> Digest, c: Container, expected: Digest, skipcheck: bool)
  {
    && Listable(c.perms)
    && |c.entries| == 1
    && Usable(c.entries[0])
    && (skipcheck || md5(c.entries[0].content) == expected)
  }

  /** Nothing in the cache is removed or rewritten: the root and every
      container keep their permissions, and every container's listing keeps
      its old entries as a prefix. */
  ghost predicate Preserves(fs: CacheFs, fs': CacheFs)
  {
    && fs'.parentPerms == fs.parentPerms
    && (fs.root.Some? ==> fs'.root.Some? && fs'.root.value.perms == fs.root.value.perms)
    && forall k :: ContainerAt(fs, k).Some? ==>
         && ContainerAt(fs', k).Some?
         && ContainerAt(fs', k).value.perms == ContainerAt(fs, k).value.perms
         && ContainerAt(fs, k).value.entries <= ContainerAt(fs', k).value.entries
  }

  /** Only the container keyed by `key` may differ. */
  ghost predicate OnlyKey(fs: CacheFs, fs': CacheFs, key: Digest)
  {
    forall k :: k != key ==> ContainerAt(fs', k) == ContainerAt(fs, k)
  }

  /** The state of the `maybe_cached_file` / `abort_caching` pair. */
  datatype Probe = Probe(candidate: Option<Entry>, abort: bool)

  /** The `iterdir` loop: a second child, or an unusable first child, means
      the container cannot be trusted. */
  function Scan(rest: seq<Entry>, found: Option<Entry>): (p: Probe)
    ensures found.Some? ==> p == (if |rest| == 0 then Probe(found, false) else Probe(None, true))
    ensures found.None? ==> (p.candidate.Some? <==> |rest| == 1 && Usable(rest[0]))
    ensures found.None? && p.candidate.Some? ==> p.candidate.value == rest[0]
    ensures found.None? ==> (p.abort <==> |rest| > 0 && p.candidate.None?)
    decreases |rest|
  {
    if |rest| == 0 then Probe(found, false)
    else if found.Some? then Probe(None, true)
    else if Usable(rest[0]) then Scan(rest[1..], Some(rest[0]))
    else Probe(None, true)
  }

  /** Looks for a cached copy of `expected`.  A candidate comes back exactly
      when the container is trustworthy; caching is aborted exactly when a
      container exists that is neither trustworthy nor a listable empty one. */
  function ProbeCache(md5: Bytes -> Digest, fs: CacheFs, expected: Digest, skipcheck: bool): (p: Probe)
    ensures p.candidate.Some? <==>
              ContainerAt(fs, expected).Some? && Trustworthy(md5, ContainerAt(fs, expected).value, expected, skipcheck)
    ensures p.candidate.Some? ==> p.candidate.value == ContainerAt(fs, expected).value.entries[0]
    ensures p.abort <==>
              && ContainerAt(fs, expected).Some?
              && p.candidate.None?
              && !(Listable(ContainerAt(fs, expected).value.perms) && ContainerAt(fs, expected).value.entries == [])
  {
    match ContainerAt(fs, expected)
    case None => Probe(None, false)
    case Some(c) =>
      if !Listable(c.perms) then Probe(None, true)
      else
        var scanned := Scan(c.entries, None);
        if scanned.candidate.Some? && !skipcheck && md5(scanned.candidate.value.content) != expected
        then Probe(None, true)
        else scanned
  }

  /** The cache state after the mkdir steps, and the updated `abort_caching`. */
  datatype Prepared = Prepared(fs: CacheFs, abort: bool)

  /** The permissions `mkdir` gives a new directory: the umask decides the
      access bits, and it lives on its parent's filesystem. */
  function NewDir(env: Env, parent: Perms): Perms
  {
    env.newDirPerms.(readOnlyMount := parent.readOnlyMount)
  }

  /** Creates the cache root when it is missing and caching is still on. */
  function EnsureRoot(env: Env, fs: CacheFs, abort: bool): (r: Prepared)
    ensures r.fs.root.Some? && fs.root.None? ==> Writable(fs.parentPerms)
    ensures !r.abort ==> r.fs.root.Some?
    ensures abort ==> r == Prepared(fs, true)
  {
    if fs.root.Some? || abort then Prepared(fs, abort)
    else if Writable(fs.parentPerms) then
      Prepared(fs.(root := Some(Root(NewDir(env, fs.parentPerms), map[]))), false)
    else Prepared(fs, true)
  }

  /** Creates the container for `key` when it is missing and caching is still
      on; `os.access` on a missing root reports no permission. */
  function EnsureContainer(env: Env, fs: CacheFs, key: Digest, abort: bool): (r: Prepared)
    ensures !r.abort ==> ContainerAt(r.fs, key).Some?
    ensures ContainerAt(r.fs, key).Some? && ContainerAt(fs, key).None? ==>
              && fs.root.Some?
              && Writable(fs.root.value.perms)
              && ContainerAt(r.fs, key).value.entries == []
    ensures abort ==> r == Prepared(fs, true)
  {
    if ContainerAt(fs, key).Some? || abort then Prepared(fs, abort)
    else if fs.root.Some? && Writable(fs.root.value.perms) then
      var root := fs.root.value;
      var c := Container(NewDir(env, root.perms), []);
      Prepared(fs.(root := Some(root.(containers := root.containers[key := c]))), false)
    else Prepared(fs, true)
  }

  /** Every mkdir and permission check between the probe and the download.
      When caching survives, the container exists and can be written. */
  function PrepareCache(env: Env, fs: CacheFs, key: Digest, abort: bool): (r: Prepared)
    ensures !r.abort ==> ContainerAt(r.fs, key).Some? && Writable(ContainerAt(r.fs, key).value.perms)
    ensures abort ==> r == Prepared(fs, true)
    ensures ContainerAt(fs, key).Some? ==> r.fs == fs
    ensures fs.root.None? && r.fs.root.Some? ==> Writable(fs.parentPerms)
    ensures ContainerAt(fs, key).None? && ContainerAt(r.fs, key).Some? ==>
              && r.fs.root.Some?
              && Writable(r.fs.root.value.perms)
              && ContainerAt(r.fs, key).value.entries == []
    ensures Preserves(fs, r.fs)
    ensures OnlyKey(fs, r.fs, key)
  {
    var withRoot := EnsureRoot(env, fs, abort);
    var withContainer := EnsureContainer(env, withRoot.fs, key, withRoot.abort);
    if !withContainer.abort && !Writable(ContainerAt(withContainer.fs, key).value.perms)
    then Prepared(withContainer.fs, true)
    else withContainer
  }

  /** `open(container / name, "wb")`: replaces a child of that name, or adds one. */
  function PutEntry(entries: seq<Entry>, e: Entry): seq<Entry>
  {
    if |entries| == 0 then [e]
    else if entries[0].name == e.name then [e] + entries[1..]
    else [entries[0]] + PutEntry(entries[1..], e)
  }

  function StoreFile(fs: CacheFs, key: Digest, e: Entry): CacheFs
    requires ContainerAt(fs, key).Some?
  {
    var root := fs.root.value;
    var c := root.containers[key];
    fs.(root := Some(root.(containers := root.containers[key := c.(entries := PutEntry(c.entries, e))])))
  }

  /** `copy_file` into the output folder: the destination gets the entry's
      bytes under the entry's name. */
  function CopyOut(out: Folder, e: Entry): Folder
  {
    out[e.name := e.content]
  }

  /** The request for `url` completed, and its response named the file `name`
      and carried the bytes `data`. */
  predicate Fetched(env: Env, url: Url, name: string, data: Bytes)
  {
    && env.fetch(url).Some?
    && env.fetch(url).value.complete
    && env.fetch(url).value.filename == name
    && Concat(env.fetch(url).value.chunks) == data
  }

  /** Serves `expected` into `out`, from the cache when a trustworthy copy is
      there, otherwise by downloading.  A successful reply always names a file
      of the output folder whose digest is the expected one (unless the cache
      was trusted unchecked), written as the only change to that folder. */
  function DownloadFromCache(env: Env, url: Url, expected: Digest, fs: CacheFs, out: Folder,
                             readonly: bool, skipcheck: bool): (o: Outcome)
    ensures !o.reply.AssertionFailed?
    ensures o.reply.Delivered() ==> o.reply.name in o.out
    ensures o.reply.Delivered() ==>
              env.md5(o.out[o.reply.name]) == expected || (skipcheck && o.reply.Served?)
    ensures o.reply.Delivered() ==> o.out == out[o.reply.name := o.out[o.reply.name]]
    ensures o.reply.ReadonlyMiss? || o.reply.FetchFailed? ==> o.out == out
    ensures o.reply.FetchFailed? ==> env.fetch(url).None?
    ensures o.reply.BodyInterrupted? ==> env.fetch(url).Some? && !env.fetch(url).value.complete
    ensures o.reply.BodyInterrupted? ==>
              var response := env.fetch(url).value;
              o.out == out || o.out == out[response.filename := Concat(response.chunks)]
    ensures o.reply.Served? ==>
              && ContainerAt(fs, expected).Some?
              && Trustworthy(env.md5, ContainerAt(fs, expected).value, expected, skipcheck)
              && o.reply.name == ContainerAt(fs, expected).value.entries[0].name
              && o.fs == fs && o.fetches == 0
    ensures o.reply.Populated? ==> PopulatedWith(env, o.fs, expected, o.reply.name, o.out[o.reply.name])
    ensures o.reply.Populated? || o.reply.Downloaded? ==>
              Fetched(env, url, o.reply.name, o.out[o.reply.name])
    ensures o.reply.Mismatch? ==>
              && env.fetch(url).Some? && env.fetch(url).value.complete
              && env.md5(Concat(env.fetch(url).value.chunks)) != expected
    ensures readonly ==> o.fs == fs && o.fetches == 0
    ensures readonly ==> o.reply.Served? || o.reply.ReadonlyMiss?
    ensures o.fetches <= 1
    ensures Preserves(fs, o.fs)
    ensures OnlyKey(fs, o.fs, expected)
    decreases if readonly then 0 else 1, 3
  {
    var probe := ProbeCache(env.md5, fs, expected, skipcheck);
    if probe.candidate.Some? then
      var e := probe.candidate.value;
      Outcome(Served(e.name), fs, CopyOut(out, e), 0)
    else if readonly then
      Outcome(ReadonlyMiss, fs, out, 0)
    else
      FetchOnMiss(env, url, expected, fs, out, probe.abort)
  }

  /** Lines 216-263, reached with nothing to serve and not readonly: the mkdir
      and permission steps, then either the download into the cache followed
      by the readonly re-serve, or the direct download.  The probe has already
      aborted caching unless any existing container is empty. */
  function FetchOnMiss(env: Env, url: Url, expected: Digest, fs: CacheFs, out: Folder, abort: bool): (o: Outcome)
    requires ContainerAt(fs, expected).Some? && !abort ==> ContainerAt(fs, expected).value.entries == []
    ensures !o.reply.AssertionFailed? && !o.reply.Served?
    ensures o.reply.Delivered() ==>
              && o.reply.name in o.out
              && env.md5(o.out[o.reply.name]) == expected
              && o.out == out[o.reply.name := o.out[o.reply.name]]
    ensures o.reply.ReadonlyMiss? || o.reply.FetchFailed? ==> o.out == out
    ensures o.reply.FetchFailed? ==> env.fetch(url).None?
    ensures o.reply.BodyInterrupted? ==> env.fetch(url).Some? && !env.fetch(url).value.complete
    ensures o.reply.BodyInterrupted? ==>
              var response := env.fetch(url).value;
              o.out == out || o.out == out[response.filename := Concat(response.chunks)]
    ensures o.reply.Populated? ==> PopulatedWith(env, o.fs, expected, o.reply.name, o.out[o.reply.name])
    ensures o.reply.Populated? || o.reply.Downloaded? ==>
              Fetched(env, url, o.reply.name, o.out[o.reply.name])
    ensures o.reply.Mismatch? ==>
              && env.fetch(url).Some? && env.fetch(url).value.complete
              && env.md5(Concat(env.fetch(url).value.chunks)) != expected
    ensures PrepareCache(env, fs, expected, abort).abort ==>
              o == DownloadDirect(env, url, expected, PrepareCache(env, fs, expected, abort).fs, out)
    ensures !PrepareCache(env, fs, expected, abort).abort ==>
              o == PopulateThenServe(env, url, expected, PrepareCache(env, fs, expected, abort).fs, out)
    ensures o.fetches == 1
    ensures Preserves(fs, o.fs)
    ensures OnlyKey(fs, o.fs, expected)
    decreases 1, 2
  {
    var prep := PrepareCache(env, fs, expected, abort);
    if !prep.abort then PopulateThenServe(env, url, expected, prep.fs, out)
    else DownloadDirect(env, url, expected, prep.fs, out)
  }

  /** The cache container for `key` holds just the file `name` with `data`, and
      a later probe can list and read it. */
  predicate PopulatedWith(env: Env, fs: CacheFs, key: Digest, name: string, data: Bytes)
  {
    && ContainerAt(fs, key).Some?
    && Listable(ContainerAt(fs, key).value.perms)
    && ContainerAt(fs, key).value.entries == [Entry(name, true, true, data)]
    && env.md5(data) == key
  }

  /** Lines 251-261: download into the empty, writable container, then serve
      the caller through the readonly, checked call and compare the names. */
  function PopulateThenServe(env: Env, url: Url, expected: Digest, fs: CacheFs, out: Folder): (o: Outcome)
    requires ContainerAt(fs, expected).Some?
    requires Writable(ContainerAt(fs, expected).value.perms)
    requires ContainerAt(fs, expected).value.entries == []
    ensures !o.reply.AssertionFailed?
    ensures o.reply.Populated? || o.reply.ReadonlyMiss? || o.reply.Mismatch?
            || o.reply.FetchFailed? || o.reply.BodyInterrupted?
    ensures o.reply.Populated? ==> o.reply.name in o.out
    ensures o.reply.Populated? ==> PopulatedWith(env, o.fs, expected, o.reply.name, o.out[o.reply.name])
    ensures o.reply.Populated? ==> o.out == out[o.reply.name := o.out[o.reply.name]]
    ensures !o.reply.Populated? ==> o.out == out
    ensures o.reply.FetchFailed? <==> env.fetch(url).None?
    ensures o.reply.BodyInterrupted? <==> env.fetch(url).Some? && !env.fetch(url).value.complete
    ensures env.fetch(url).Some? ==>
              var response := env.fetch(url).value;
              && ContainerAt(o.fs, expected).Some?
              && ContainerAt(o.fs, expected).value.entries
                 == [Entry(response.filename, true, env.newFileReadable, Concat(response.chunks))]
    ensures o.reply.Mismatch? <==>
              && env.fetch(url).Some? && env.fetch(url).value.complete
              && env.md5(Concat(env.fetch(url).value.chunks)) != expected
    ensures o.reply.Populated? <==>
              && env.fetch(url).Some? && env.fetch(url).value.complete && env.newFileReadable
              && env.md5(Concat(env.fetch(url).value.chunks)) == expected
    ensures o.reply.Populated? ==> Fetched(env, url, o.reply.name, o.out[o.reply.name])
    ensures o.reply.ReadonlyMiss? <==> env.fetch(url).Some? && env.fetch(url).value.complete
                                       && !env.newFileReadable
                                       && env.md5(Concat(env.fetch(url).value.chunks)) == expected
    ensures o.reply.Mismatch? ==>
              && ContainerAt(o.fs, expected).Some?
              && |ContainerAt(o.fs, expected).value.entries| == 1
              && env.md5(ContainerAt(o.fs, expected).value.entries[0].content) != expected
    ensures o.fetches == 1
    ensures Preserves(fs, o.fs)
    ensures OnlyKey(fs, o.fs, expected)
    decreases 1, 1
  {
    match DownloadWithMd5(env.md5, env.fetch, url, expected)
    case NetworkFailure => Outcome(FetchFailed, fs, out, 1)
    case Interrupted(name, data) =>
      Outcome(BodyInterrupted, StoreFile(fs, expected, Entry(name, true, env.newFileReadable, data)), out, 1)
    case Wrote(name, data, matched) =>
      var cached := StoreFile(fs, expected, Entry(name, true, env.newFileReadable, data));
      if !matched then Outcome(Mismatch, cached, out, 1)
      else
        var warm := ServeFresh(env, url, expected, cached, out, name, data);
        warm.(fetches := 1 + warm.fetches)
  }

  /** Lines 257-261: the readonly, checked call that serves the file just
      written into the container, and the assertion that it served that file. */
  function ServeFresh(env: Env, url: Url, expected: Digest, fs: CacheFs, out: Folder,
                      name: string, data: Bytes): (o: Outcome)
    requires ContainerAt(fs, expected).Some?
    requires Writable(ContainerAt(fs, expected).value.perms)
    requires ContainerAt(fs, expected).value.entries == [Entry(name, true, env.newFileReadable, data)]
    requires env.md5(data) == expected
    ensures o.reply.Populated? <==> env.newFileReadable
    ensures o.reply.Populated? || o.reply.ReadonlyMiss?
    ensures o.reply.Populated? ==>
              && o.reply.name == name
              && o.out == out[name := data]
              && PopulatedWith(env, o.fs, expected, name, data)
    ensures o.reply.ReadonlyMiss? ==> o.out == out
    ensures o.fs == fs && o.fetches == 0
    decreases 1, 0
  {
    var warm := DownloadFromCache(env, url, expected, fs, out, true, false);
    if warm.reply.Served? then
      Outcome(if warm.reply.name == name then Populated(name) else AssertionFailed,
              warm.fs, warm.out, warm.fetches)
    else warm
  }

  /** Line 263: caching is off, so the file goes straight to the output folder,
      where it stays even when its digest is wrong. */
  function DownloadDirect(env: Env, url: Url, expected: Digest, fs: CacheFs, out: Folder): (o: Outcome)
    ensures o.reply.Downloaded? || o.reply.Mismatch? || o.reply.FetchFailed? || o.reply.BodyInterrupted?
    ensures o.fs == fs && o.fetches == 1
    ensures o.reply.FetchFailed? <==> env.fetch(url).None?
    ensures o.reply.BodyInterrupted? <==> env.fetch(url).Some? && !env.fetch(url).value.complete
    ensures !o.reply.FetchFailed? ==>
              var response := env.fetch(url).value;
              && o.out == out[response.filename := Concat(response.chunks)]
              && (o.reply.Downloaded? <==>
                    response.complete && env.md5(Concat(response.chunks)) == expected)
              && (o.reply.Downloaded? ==> o.reply.name == response.filename)
    ensures o.reply.FetchFailed? ==> o.out == out
  {
    match DownloadWithMd5(env.md5, env.fetch, url, expected)
    case NetworkFailure => Outcome(FetchFailed, fs, out, 1)
    case Interrupted(name, data) => Outcome(BodyInterrupted, fs, out[name := data], 1)
    case Wrote(name, data, matched) =>
      Outcome(if matched then Downloaded(name) else Mismatch, fs, out[name := data], 1)
  }
}

=== FILE: cache_properties.dfy ===
/** Properties of the download cache, stated over whole calls and over pairs
    of calls. */
module CacheProperties {
  import opened Base
  import opened Download
  import opened Cache

  /** A listable container holding one readable regular file that passes the
      digest check (or the check is skipped) is served: the output folder gets
      that file under its own name, the cache is untouched and nothing is
      downloaded. */
  lemma CacheHitIsServed(env: Env, url: Url, expected: Digest, fs: CacheFs, out: Folder,
                         readonly: bool, skipcheck: bool)
    requires ContainerAt(fs, expected).Some?
    requires Listable(ContainerAt(fs, expected).value.perms)
    requires |ContainerAt(fs, expected).value.entries| == 1
    requires Usable(ContainerAt(fs, expected).value.entries[0])
    requires skipcheck || env.md5(ContainerAt(fs, expected).value.entries[0].content) == expected
    ensures var e := ContainerAt(fs, expected).value.entries[0];
            DownloadFromCache(env, url, expected, fs, out, readonly, skipcheck)
            == Outcome(Served(e.name), fs, out[e.name := e.content], 0)
  {
  }

  /** A container that exists but is not listable, lists two or more children,
      lists an unusable first child, or holds a file with the wrong digest, is
      never served and never written to: readonly calls fail without effect,
      the others download straight into the output folder. */
  lemma UntrustedContainerFallsThrough(env: Env, url: Url, expected: Digest, fs: CacheFs, out: Folder,
                                       readonly: bool, skipcheck: bool)
    requires ContainerAt(fs, expected).Some?
    requires var c := ContainerAt(fs, expected).value;
             || !Listable(c.perms)
             || |c.entries| >= 2
             || (|c.entries| >= 1 && !Usable(c.entries[0]))
             || (|c.entries| == 1 && !skipcheck && env.md5(c.entries[0].content) != expected)
    ensures var o := DownloadFromCache(env, url, expected, fs, out, readonly, skipcheck);
            && !o.reply.Served?
            && (readonly ==> o == Outcome(ReadonlyMiss, fs, out, 0))
            && (!readonly ==> o == DownloadDirect(env, url, expected, fs, out))
  {
    var probe := ProbeCache(env.md5, fs, expected, skipcheck);
    assert probe.candidate.None? && probe.abort;
  }

  /** Readonly with nothing trustworthy in the cache fails before any mkdir and
      before any network request. */
  lemma ReadonlyMissHasNoEffect(env: Env, url: Url, expected: Digest, fs: CacheFs, out: Folder,
                                skipcheck: bool)
    requires ContainerAt(fs, expected).None?
             || !Trustworthy(env.md5, ContainerAt(fs, expected).value, expected, skipcheck)
    ensures DownloadFromCache(env, url, expected, fs, out, true, skipcheck)
            == Outcome(ReadonlyMiss, fs, out, 0)
  {
  }

  /** The cache root is created only under a writable, read-write-mounted
      parent, and a container only under such a root. */
  lemma CacheDirsNeedWritableParent(env: Env, url: Url, expected: Digest, fs: CacheFs, out: Folder,
                                    readonly: bool, skipcheck: bool)
    ensures var o := DownloadFromCache(env, url, expected, fs, out, readonly, skipcheck);
            && (fs.root.None? && o.fs.root.Some? ==> Writable(fs.parentPerms))
            && (ContainerAt(fs, expected).None? && ContainerAt(o.fs, expected).Some? ==>
                  o.fs.root.Some? && Writable(o.fs.root.value.perms))
  {
    var probe := ProbeCache(env.md5, fs, expected, skipcheck);
    if probe.candidate.None? && !readonly {
      var prep := PrepareCache(env, fs, expected, probe.abort);
      var o := DownloadFromCache(env, url, expected, fs, out, readonly, skipcheck);
      if !prep.abort {
        assert o == PopulateThenServe(env, url, expected, prep.fs, out);
      } else {
        assert o.fs == prep.fs;
      }
    }
  }

  /** Cold cache: with permission to create the root and the container and a
      source whose bytes have the expected digest, the file is downloaded into
      a new container holding only it, and the caller gets the same bytes. */
  lemma ColdCachePopulates(env: Env, url: Url, expected: Digest, fs: CacheFs, out: Folder,
                           skipcheck: bool)
    requires fs.root.None?
    requires Writable(fs.parentPerms)
    requires Writable(NewDir(env, fs.parentPerms))
    requires env.newFileReadable
    requires env.fetch(url).Some? && env.fetch(url).value.complete
    requires env.md5(Concat(env.fetch(url).value.chunks)) == expected
    ensures var response := env.fetch(url).value;
            var data := Concat(response.chunks);
            var o := DownloadFromCache(env, url, expected, fs, out, false, skipcheck);
            && o.reply == Populated(response.filename)
            && o.out == out[response.filename := data]
            && PopulatedWith(env, o.fs, expected, response.filename, data)
            && o.fetches == 1
  {
    var response := env.fetch(url).value;
    var data := Concat(response.chunks);
    var prep := PrepareCache(env, fs, expected, false);
    assert !prep.abort;
    var cached := StoreFile(prep.fs, expected, Entry(response.filename, true, true, data));
    assert ContainerAt(cached, expected).value.entries == [Entry(response.filename, true, true, data)];
  }

  /** Warm cache: once a call has populated the cache, every later call for
      the same digest is served from it, whatever the network now does, with
      the bytes the first call delivered and without a request. */
  lemma WarmCacheServesWithoutNetwork(env: Env, url: Url, expected: Digest, fs: CacheFs, out: Folder,
                                      skipcheck: bool, fetch': Url -> Option<Response>, url': Url,
                                      out': Folder, readonly': bool, skipcheck': bool)
    requires DownloadFromCache(env, url, expected, fs, out, false, skipcheck).reply.Populated?
    ensures var first := DownloadFromCache(env, url, expected, fs, out, false, skipcheck);
            var name := first.reply.name;
            DownloadFromCache(env.(fetch := fetch'), url', expected, first.fs, out', readonly', skipcheck')
            == Outcome(Served(name), first.fs, out'[name := first.out[name]], 0)
  {
  }

  /** A call that failed the digest check leaves nothing a later checked call
      will trust: a file it wrote into the cache is re-detected and rejected. */
  lemma MismatchNeverTrustedLater(env: Env, url: Url, expected: Digest, fs: CacheFs, out: Folder,
                                  readonly: bool, skipcheck: bool, fetch': Url -> Option<Response>,
                                  url': Url, out': Folder, readonly': bool)
    requires DownloadFromCache(env, url, expected, fs, out, readonly, skipcheck).reply.Mismatch?
    ensures var first := DownloadFromCache(env, url, expected, fs, out, readonly, skipcheck);
            !DownloadFromCache(env.(fetch := fetch'), url', expected, first.fs, out', readonly', false).reply.Served?
  {
    var first := DownloadFromCache(env, url, expected, fs, out, readonly, skipcheck);
    var probe := ProbeCache(env.md5, fs, expected, skipcheck);
    var prep := PrepareCache(env, fs, expected, probe.abort);
    if !prep.abort {
      assert first == PopulateThenServe(env, url, expected, prep.fs, out);
    } else {
      assert first.fs == prep.fs;
      assert ContainerAt(prep.fs, expected).None? || ContainerAt(prep.fs, expected).value.entries == []
             || !Trustworthy(env.md5, ContainerAt(prep.fs, expected).value, expected, false);
    }
  }

  /** With `skipcheck` set, the file a failed download left in the cache IS
      served later, although its digest is wrong. */
  lemma SkipcheckServesFailedDownload(env: Env, url: Url, expected: Digest, fs: CacheFs, out: Folder,
                                      out': Folder)
    requires fs.root.Some?
    requires ContainerAt(fs, expected).None?
    requires Writable(fs.root.value.perms)
    requires Writable(NewDir(env, fs.root.value.perms))
    requires env.newFileReadable
    requires env.fetch(url).Some? && env.fetch(url).value.complete
    requires env.md5(Concat(env.fetch(url).value.chunks)) != expected
    ensures var first := DownloadFromCache(env, url, expected, fs, out, false, false);
            var second := DownloadFromCache(env, url, expected, first.fs, out', true, true);
            && first.reply.Mismatch?
            && second.reply.Served?
            && env.md5(second.out[second.reply.name]) != expected
  {
    var prep := PrepareCache(env, fs, expected, false);
    assert !prep.abort;
  }

  /** The mkdir and permission steps abort caching exactly when the directory
      the file would go into cannot be made writable: an existing container
      that is not writable, or, when it must be created, a root (existing or
      new) or a new container that is not writable. */
  lemma PrepareAbortsExactly(env: Env, fs: CacheFs, key: Digest)
    ensures PrepareCache(env, fs, key, false).abort <==>
              if ContainerAt(fs, key).Some? then !Writable(ContainerAt(fs, key).value.perms)
              else if fs.root.Some? then
                !Writable(fs.root.value.perms) || !Writable(NewDir(env, fs.root.value.perms))
              else !Writable(fs.parentPerms) || !Writable(NewDir(env, fs.parentPerms))
  {
  }

  /** When nothing in the cache can be served and the mkdir or permission
      steps abort caching, the call is exactly the direct download into the
      output folder, on the cache as those steps left it. */
  lemma PermissionAbortIsDirect(env: Env, url: Url, expected: Digest, fs: CacheFs, out: Folder,
                                skipcheck: bool)
    requires ProbeCache(env.md5, fs, expected, skipcheck).candidate.None?
    requires PrepareCache(env, fs, expected, ProbeCache(env.md5, fs, expected, skipcheck).abort).abort
    ensures DownloadFromCache(env, url, expected, fs, out, false, skipcheck)
            == DownloadDirect(env, url, expected,
                              PrepareCache(env, fs, expected, ProbeCache(env.md5, fs, expected, skipcheck).abort).fs,
                              out)
  {
  }

  /** No cache root and a parent the process cannot write into: the cache is
      left alone and a good download lands straight in the output folder. */
  lemma UnwritableParentDownloadsDirect(env: Env, url: Url, expected: Digest, fs: CacheFs, out: Folder,
                                        skipcheck: bool)
    requires fs.root.None?
    requires !Writable(fs.parentPerms)
    ensures DownloadFromCache(env, url, expected, fs, out, false, skipcheck)
            == DownloadDirect(env, url, expected, fs, out)
    ensures env.fetch(url).Some? && env.fetch(url).value.complete
            && env.md5(Concat(env.fetch(url).value.chunks)) == expected ==>
              var response := env.fetch(url).value;
              DownloadFromCache(env, url, expected, fs, out, false, skipcheck)
              == Outcome(Downloaded(response.filename), fs, out[response.filename := Concat(response.chunks)], 1)
  {
  }

  /** A body read that raises while the file streams into a fresh container
      leaves the partial file there.  Unless its digest happens to be the
      expected one, every later checked call aborts caching: one that is not
      readonly downloads directly, a readonly one raises `RuntimeError` with no
      effect.  A readonly `skipcheck` call serves the partial bytes. */
  lemma InterruptedDownloadPoisonsCache(env: Env, url: Url, expected: Digest, fs: CacheFs, out: Folder,
                                        fetch': Url -> Option<Response>, url': Url, out': Folder,
                                        out'': Folder)
    requires fs.root.Some?
    requires ContainerAt(fs, expected).None?
    requires Writable(fs.root.value.perms)
    requires Writable(NewDir(env, fs.root.value.perms))
    requires env.newFileReadable
    requires env.fetch(url).Some? && !env.fetch(url).value.complete
    requires env.md5(Concat(env.fetch(url).value.chunks)) != expected
    ensures var first := DownloadFromCache(env, url, expected, fs, out, false, false);
            && first.reply.BodyInterrupted?
            && first.out == out
            && DownloadFromCache(env.(fetch := fetch'), url', expected, first.fs, out', false, false)
               == DownloadDirect(env.(fetch := fetch'), url', expected, first.fs, out')
            && DownloadFromCache(env.(fetch := fetch'), url', expected, first.fs, out', true, false)
               == Outcome(ReadonlyMiss, first.fs, out', 0)
    ensures var first := DownloadFromCache(env, url, expected, fs, out, false, false);
            var second := DownloadFromCache(env, url, expected, first.fs, out'', true, true);
            && second.reply.Served?
            && second.out[second.reply.name] == Concat(env.fetch(url).value.chunks)
  {
    var prep := PrepareCache(env, fs, expected, false);
    assert !prep.abort;
  }

  /** Whenever nothing can be served and the mkdir and permission steps keep
      caching on (a new digest under an existing root, a fresh root, or an
      empty container left by an earlier call), a complete body with the
      expected digest and a readable new file end `Populated`: the container
      holds just the response's file, and the caller gets the response's name
      and bytes after one request. */
  lemma CachingPopulates(env: Env, url: Url, expected: Digest, fs: CacheFs, out: Folder,
                         skipcheck: bool)
    requires ProbeCache(env.md5, fs, expected, skipcheck).candidate.None?
    requires !PrepareCache(env, fs, expected, ProbeCache(env.md5, fs, expected, skipcheck).abort).abort
    requires env.fetch(url).Some? && env.fetch(url).value.complete
    requires env.md5(Concat(env.fetch(url).value.chunks)) == expected
    requires env.newFileReadable
    ensures var response := env.fetch(url).value;
            var data := Concat(response.chunks);
            var o := DownloadFromCache(env, url, expected, fs, out, false, skipcheck);
            && o.reply == Populated(response.filename)
            && o.out == out[response.filename := data]
            && PopulatedWith(env, o.fs, expected, response.filename, data)
            && o.fetches == 1
  {
  }
}

=== FILE: download.dfy ===
/** The verified fetcher, `download_with_md5` in rds/modules/common.py.

    The network is a total function from URL to an optional response: `None`
    stands for every failure the request layer reports before the body is
    read (exhausted retries, `raise_for_status`).  A response carries the
    filename the Content-Disposition header yields (RFC 6266, section 4.3),
    kept opaque, the body as the sequence of chunks the stream delivers, and
    whether the stream ended normally: `iter_content` can raise part-way
    through the body, after the output file is already open, and the retry
    policy does not cover body reads.  MD5 is an
    uninterpreted function: only equality with the expected digest matters. */
module Download {
  import opened Base

  /** `chunks` are the chunks delivered; when `complete` is false the stream
      raised right after the last of them. */
  datatype Response = Response(filename: string, chunks: seq<Bytes>, complete: bool)

  /** The outcome of one call.  `Interrupted` means the body read raised after
      the file named `filename` had received `data`; the partial file stays.
      `Wrote` means a file named `filename` holding `data` was written into the
      target folder; `matched` is false exactly when the call then raised the
      MD5-mismatch `ValueError` (the file stays). */
  datatype Download =
    | NetworkFailure
    | Interrupted(filename: string, data: Bytes)
    | Wrote(filename: string, data: Bytes, matched: bool)

  /** The reference meaning of a streamed body: every chunk, in order. */
  function Concat(chunks: seq<Bytes>): Bytes
  {
    if |chunks| == 0 then [] else chunks[0] + Concat(chunks[1..])
  }

  /** The bytes the streaming loop hands both to the digest and to the file:
      each chunk that is non-empty, appended in arrival order. */
  function Streamed(chunks: seq<Bytes>): Bytes
  {
    if |chunks| == 0 then []
    else
      var last := chunks[|chunks| - 1];
      Streamed(chunks[..|chunks| - 1]) + (if |last| > 0 then last else [])
  }

  lemma {:induction false} ConcatSnoc(chunks: seq<Bytes>, c: Bytes)
    ensures Concat(chunks + [c]) == Concat(chunks) + c
    decreases |chunks|
  {
    if |chunks| == 0 {
      assert chunks + [c] == [c];
    } else {
      assert (chunks + [c])[1..] == chunks[1..] + [c];
      ConcatSnoc(chunks[1..], c);
    }
  }

  /** Skipping empty chunks loses nothing and reorders nothing. */
  lemma {:induction false} StreamedIsConcat(chunks: seq<Bytes>)
    ensures Streamed(chunks) == Concat(chunks)
    decreases |chunks|
  {
    if |chunks| > 0 {
      var init := chunks[..|chunks| - 1];
      var last := chunks[|chunks| - 1];
      StreamedIsConcat(init);
      ConcatSnoc(init, last);
      assert init + [last] == chunks;
    }
  }

  /** The streaming loop itself: one accumulator stands for the running MD5
      state (with MD5 uninterpreted, the state is the bytes fed so far), the
      other for the bytes written to the open file. */
  method StreamBody(chunks: seq<Bytes>) returns (hashed: Bytes, written: Bytes)
    ensures hashed == Concat(chunks)
    ensures written == Concat(chunks)
  {
    hashed, written := [], [];
    var i := 0;
    while i < |chunks|
      invariant 0 <= i <= |chunks|
      invariant hashed == Streamed(chunks[..i])
      invariant written == Streamed(chunks[..i])
    {
      var chunk := chunks[i];
      if |chunk| > 0 {
        hashed := hashed + chunk;
        written := written + chunk;
      }
      assert chunks[..i + 1][..i] == chunks[..i];
      i := i + 1;
    }
    assert chunks[..|chunks|] == chunks;
    StreamedIsConcat(chunks);
  }

  /** Downloads `url`, streaming the body through MD5 into a file named after
      the response; the name comes back only when the digest matches.  The
      bytes reach the file through the loop `StreamBody` carries out, which
      `Streamed` summarises: whatever the stream delivered before it ended or
      raised is what the file holds. */
  function DownloadWithMd5(md5: Bytes -> Digest, fetch: Url -> Option<Response>,
                           url: Url, expected: Digest): (d: Download)
    ensures d.NetworkFailure? <==> fetch(url).None?
    ensures d.Interrupted? <==> fetch(url).Some? && !fetch(url).value.complete
    ensures !d.NetworkFailure? ==> d.filename == fetch(url).value.filename
    ensures !d.NetworkFailure? ==> d.data == Concat(fetch(url).value.chunks)
    ensures d.Wrote? ==> (d.matched <==> md5(Concat(fetch(url).value.chunks)) == expected)
  {
    match fetch(url)
    case None => NetworkFailure
    case Some(response) =>
      var data := Streamed(response.chunks);
      StreamedIsConcat(response.chunks);
      if !response.complete then Interrupted(response.filename, data)
      else Wrote(response.filename, data, md5(data) == expected)
  }
}

=== FILE: text.dfy ===
/** Python's `str.split(sep)` and `sep.join(parts)` for a one-character
    separator, with the round trips that connect them. */
module Text {

  /** `s.split(sep)`: the maximal separator-free runs of `s`, empty runs
      included, so there is always at least one part. */
  function Split(s: string, sep: char): (parts: seq<string>)
    ensures |parts| >= 1
    ensures forall i :: 0 <= i < |parts| ==> sep !in parts[i]
    decreases |s|
  {
    if |s| == 0 then [""]
    else if s[0] == sep then [""] + Split(s[1..], sep)
    else
      var rest := Split(s[1..], sep);
      [[s[0]] + rest[0]] + rest[1..]
  }

  /** `sep.join(parts)`. */
  function Join(sep: char, parts: seq<string>): string
  {
    if |parts| == 0 then ""
    else if |parts| == 1 then parts[0]
    else parts[0] + [sep] + Join(sep, parts[1..])
  }

  /** Joining the parts of a split gives back the string. */
  lemma {:induction false} JoinSplit(s: string, sep: char)
    ensures Join(sep, Split(s, sep)) == s
    decreases |s|
  {
    if |s| > 0 {
      var rest := Split(s[1..], sep);
      JoinSplit(s[1..], sep);
      if s[0] == sep {
        assert Split(s, sep) == [""] + rest;
      } else {
        var parts := Split(s, sep);
        assert parts == [[s[0]] + rest[0]] + rest[1..];
        if |rest| == 1 {
          assert Join(sep, parts) == [s[0]] + rest[0];
        } else {
          assert parts[1..] == rest[1..];
          assert Join(sep, rest) == rest[0] + [sep] + Join(sep, rest[1..]);
        }
      }
    }
  }

  /** Splitting at a separator placed between two strings splits each side. */
  lemma {:induction false} SplitAround(a: string, b: string, sep: char)
    ensures Split(a + [sep] + b, sep) == Split(a, sep) + Split(b, sep)
    decreases |a|
  {
    var s := a + [sep] + b;
    if |a| == 0 {
      assert s[1..] == b;
    } else {
      assert s[1..] == a[1..] + [sep] + b;
      SplitAround(a[1..], b, sep);
    }
  }

  /** A separator-free string splits into itself. */
  lemma {:induction false} SplitWithoutSep(s: string, sep: char)
    requires sep !in s
    ensures Split(s, sep) == [s]
    decreases |s|
  {
    if |s| > 0 {
      assert s[0] in s;
      assert forall c :: c in s[1..] ==> c in s;
      SplitWithoutSep(s[1..], sep);
      assert [s[0]] + s[1..] == s;
    }
  }

  /** Splitting a join of separator-free parts gives back the parts. */
  lemma {:induction false} SplitJoin(parts: seq<string>, sep: char)
    requires |parts| >= 1
    requires forall i :: 0 <= i < |parts| ==> sep !in parts[i]
    ensures Split(Join(sep, parts), sep) == parts
    decreases |parts|
  {
    SplitWithoutSep(parts[0], sep);
    if |parts| > 1 {
      SplitJoin(parts[1..], sep);
      SplitAround(parts[0], Join(sep, parts[1..]), sep);
    }
  }

  /** The elements after the first of `own + more` are those after the first
      of `own`, plus all of `more`. */
  lemma TailElements<T>(own: seq<T>, more: seq<T>)
    requires |own| >= 1
    ensures (set i | 1 <= i < |own + more| :: (own + more)[i])
            == (set i | 1 <= i < |own| :: own[i]) + (set i | 0 <= i < |more| :: more[i])
  {
    var parts := own + more;
    var lhs := set i | 1 <= i < |parts| :: parts[i];
    var rhs := (set i | 1 <= i < |own| :: own[i]) + (set i | 0 <= i < |more| :: more[i]);
    forall f | f in lhs
      ensures f in rhs
    {
      var i :| 1 <= i < |parts| && parts[i] == f;
      if i < |own| {
        assert own[i] == f;
      } else {
        assert more[i - |own|] == f;
      }
    }
    forall f | f in rhs
      ensures f in lhs
    {
      if i :| 1 <= i < |own| && own[i] == f {
        assert parts[i] == f;
      } else {
        var i :| 0 <= i < |more| && more[i] == f;
        assert parts[i + |own|] == f;
      }
    }
  }
}

=== FILE: versions.dfy ===
/** The frozen Android version tables of rds/__main__.py and the parsing and
    classification of the `--android-version` string. */
module Versions {
  import opened Base
  import opened Text

  const Android9Majors: set<string> :=
    {"9.0.0", "9.0.0_r220830", "9.0.0_r220709", "9.0.0_r220514", "9.0.0_r220107"}

  const Android10Majors: set<string> :=
    {"10.0.0", "10.0.0_r220830", "10.0.0_r220709", "10.0.0_r220514", "10.0.0_r220107", "10.0.0_r210930"}

  const Android11Majors: set<string> := {"11.0.0_r220830", "11.0.0_r221023", "11.0.0"}

  const AndroidLegacy: set<string> := Android9Majors + Android10Majors + Android11Majors

  const Android12Majors: set<string> := {"12.0.0", "12.0.0_64only", "12.0.0_64only_r220830"}

  const Android13Majors: set<string> := {"13.0.0", "13.0.0_64only", "13.0.0_r220830", "13.0.0_r220817"}

  const Android14Majors: set<string> := {"14.0.0", "14.0.0_64only"}

  const Android15Majors: set<string> := {"15.0.0", "15.0.0_64only"}

  const Android16Majors: set<string> := {"16.0.0", "16.0.0_64only"}

  const AndroidSupported: set<string> :=
    Android12Majors + Android13Majors + Android14Majors + Android15Majors + Android16Majors

  const AndroidAll: set<string> := AndroidLegacy + AndroidSupported

  /** The supported majors whose images run 64-bit binaries only, listed by hand. */
  const SixtyFourOnly: set<string> :=
    {"12.0.0_64only", "12.0.0_64only_r220830", "13.0.0_64only", "14.0.0_64only",
     "15.0.0_64only", "16.0.0_64only"}

  /** `android_major, redroid_revision = android.split("-")`: the unpacking
      succeeds only when the split yields exactly two parts. */
  function ParseAndroid(android: string): (r: Option<(string, string)>)
    ensures r.Some? ==> android == r.value.0 + "-" + r.value.1
    ensures r.Some? ==> '-' !in r.value.0 && '-' !in r.value.1
  {
    var parts := Split(android, '-');
    JoinSplit(android, '-');
    if |parts| == 2 then
      assert parts[0] !in [] && parts[1] !in [];
      Some((parts[0], parts[1]))
    else None
  }

  /** Every string of the form `major-revision` with dash-free sides parses
      back into exactly those sides. */
  lemma ParseAndroidComplete(major: string, revision: string)
    requires '-' !in major && '-' !in revision
    ensures ParseAndroid(major + "-" + revision) == Some((major, revision))
  {
    SplitJoin([major, revision], '-');
    assert Join('-', [major, revision]) == major + "-" + revision;
  }

  /** `frozenset(android_major.split("_")[1:])`: the `_`-separated components
      after the base.  `FeaturesOf` gives them exactly for a major built from
      a base and components. */
  function Features(major: string): (f: set<string>)
    ensures '_' !in major ==> f == {}
    ensures forall x | x in f :: '_' !in x
  {
    var parts := Split(major, '_');
    var f := set i | 1 <= i < |parts| :: parts[i];
    if '_' in major then f
    else
      SplitWithoutSep(major, '_');
      f
  }

  /** A major built as a base plus `_`-joined components has exactly those
      components as its features. */
  lemma FeaturesOf(base: string, components: seq<string>)
    requires '_' !in base
    requires forall i :: 0 <= i < |components| ==> '_' !in components[i]
    ensures |components| == 0 ==> Features(base) == {}
    ensures |components| > 0 ==>
              Features(base + "_" + Join('_', components)) == set i | 0 <= i < |components| :: components[i]
  {
    SplitWithoutSep(base, '_');
    if |components| > 0 {
      SplitJoin(components, '_');
      SplitAround(base, Join('_', components), '_');
      TailElements([base], components);
    }
  }

  datatype Deprecation = LegacyRelease | MixedMode

  /** The deprecation warning `main` emits for a major it accepts: legacy
      releases first, otherwise any image without the `64only` feature. */
  function VersionDeprecation(major: string): (w: Option<Deprecation>)
    ensures w == Some(LegacyRelease) <==> major in AndroidLegacy
    ensures w == Some(MixedMode) <==> major !in AndroidLegacy && "64only" !in Features(major)
  {
    if major in AndroidLegacy then Some(LegacyRelease)
    else if "64only" !in Features(major) then Some(MixedMode)
    else None
  }

  /** No major is both legacy and supported, so a major draws at most one of
      the two version warnings. */
  lemma SupportedIsNotLegacy(major: string)
    requires major in AndroidSupported
    ensures major !in AndroidLegacy
  {
    if major in Android12Majors {
    } else if major in Android13Majors {
    } else if major in Android14Majors {
    } else if major in Android15Majors {
    } else {
    }
  }

  /** The warning of a supported major built from a base and its
      `_`-separated components depends only on whether `64only` is one of them. */
  lemma DeprecationByComponents(major: string, base: string, components: seq<string>)
    requires major in AndroidSupported
    requires '_' !in base
    requires forall i :: 0 <= i < |components| ==> '_' !in components[i]
    requires major == if |components| == 0 then base else base + "_" + Join('_', components)
    ensures VersionDeprecation(major) == if "64only" in components then None else Some(MixedMode)
  {
    SupportedIsNotLegacy(major);
    FeaturesOf(base, components);
    if "64only" in components {
      var i :| 0 <= i < |components| && components[i] == "64only";
      assert components[i] in Features(major);
    }
  }

  /** For every supported major, the warning is absent exactly when the
      major is one of the hand-listed 64-bit-only ones. */
  predicate WarnsUnless64Only(major: string)
  {
    VersionDeprecation(major) == if major in SixtyFourOnly then None else Some(MixedMode)
  }

  /** The one Android 12 major with two components is supported, listed as
      64-bit only, and built from `12.0.0` and `64only`, `r220830`. */
  lemma Android12RevisionedMajor(major: string)
    requires major == "12.0.0_64only_r220830"
    ensures major in AndroidSupported && major in SixtyFourOnly
    ensures major == "12.0.0" + "_" + Join('_', ["64only", "r220830"])
  {
    assert Join('_', ["64only", "r220830"]) == "64only_r220830";
  }

  lemma Android12Deprecation(major: string)
    requires major in Android12Majors
    ensures WarnsUnless64Only(major)
  {
    if major == "12.0.0_64only_r220830" {
      Android12RevisionedMajor(major);
      var components := ["64only", "r220830"];
      assert components[0] == "64only";
      DeprecationByComponents(major, "12.0.0", components);
    } else {
      var plain := "12.0.0";
      assert plain + "_64only" == "12.0.0_64only";
      assert plain + "_64only" in SixtyFourOnly && plain !in SixtyFourOnly;
      PairDeprecation(major, plain);
    }
  }

  lemma Android13Deprecation(major: string)
    requires major in Android13Majors
    ensures WarnsUnless64Only(major)
  {
    if major == "13.0.0_r220830" {
      assert "13.0.0" + "_" + "r220830" == major;
      DeprecationByComponents(major, "13.0.0", ["r220830"]);
    } else if major == "13.0.0_r220817" {
      assert "13.0.0" + "_" + "r220817" == major;
      DeprecationByComponents(major, "13.0.0", ["r220817"]);
    } else {
      assert "13.0.0" + "_64only" == "13.0.0_64only";
      PairDeprecation(major, "13.0.0");
    }
  }

  /** The Android 14, 15 and 16 tables share one shape: a plain release and
      its `_64only` variant. */
  lemma PairDeprecation(major: string, plain: string)
    requires major in AndroidSupported
    requires major == plain || major == plain + "_64only"
    requires '_' !in plain
    requires plain + "_64only" in SixtyFourOnly && plain !in SixtyFourOnly
    ensures WarnsUnless64Only(major)
  {
    if major == plain {
      DeprecationByComponents(major, plain, []);
    } else {
      assert plain + "_" + Join('_', ["64only"]) == major;
      DeprecationByComponents(major, plain, ["64only"]);
    }
  }

  /** The legacy and supported tables share no major. */
  lemma LegacySupportedDisjoint()
    ensures AndroidLegacy !! AndroidSupported
  {
    forall major | major in AndroidSupported
      ensures major !in AndroidLegacy
    {
      SupportedIsNotLegacy(major);
    }
  }

  /** Among the supported majors, exactly the hand-listed 64-bit-only ones
      draw no warning; every other one draws the mixed-mode warning. */
  lemma SupportedDeprecation(major: string)
    requires major in AndroidSupported
    ensures VersionDeprecation(major) == None <==> major in SixtyFourOnly
    ensures VersionDeprecation(major) != None ==> VersionDeprecation(major) == Some(MixedMode)
  {
    if major in Android12Majors {
      Android12Deprecation(major);
    } else if major in Android13Majors {
      Android13Deprecation(major);
    } else if major in Android14Majors {
      assert "14.0.0" + "_64only" == "14.0.0_64only";
      PairDeprecation(major, "14.0.0");
    } else if major in Android15Majors {
      assert "15.0.0" + "_64only" == "15.0.0_64only";
      PairDeprecation(major, "15.0.0");
    } else {
      assert "16.0.0" + "_64only" == "16.0.0_64only";
      PairDeprecation(major, "16.0.0");
    }
  }

  /** The default `--android-version`, `16.0.0_64only-latest`, parses to a
      current 64-bit-only Android 16 major and draws no warning. */
  lemma DefaultVersionIsCurrent(android: string)
    requires android == "16.0.0_64only-latest"
    ensures ParseAndroid(android).Some?
    ensures var major := ParseAndroid(android).value.0;
            && major in Android16Majors
            && ParseAndroid(android).value.1 == "latest"
            && Features(major) == {"64only"}
            && VersionDeprecation(major) == None
  {
    var major, revision := "16.0.0_64only", "latest";
    ParseAndroidComplete(major, revision);
    assert major + "-" + revision == android;
    DefaultMajorFeatures(major);
    SupportedDeprecation(major);
  }

  lemma DefaultMajorFeatures(major: string)
    requires major == "16.0.0_64only"
    ensures Features(major) == {"64only"}
  {
    assert "16.0.0" + "_" + Join('_', ["64only"]) == major;
    FeaturesOf("16.0.0", ["64only"]);
  }
}
